=== FILE: README.md ===
# Rosetta compiler support test, modelled in Dafny

`rosetta_compiler_test.py` checks whether a C++ compiler invocation can build
Rosetta. It probes the compiler with `--version`, then compiles each snippet of
two catalogs of feature cases: `TESTS` (required) and `OPTIONAL_TESTS`. For each
case it prints a pass/fail line. It ends with the counts, an optional dump of
the diagnostics, and a verdict.

This project models the script's decision logic. The operating system and
the compiler are an abstract oracle (`Execution.Oracle`) with two parts. The
first says which program paths `Popen` can start. A path it cannot start
makes `Popen` raise `OSError`, which the script never catches. The second
maps a command line and the current contents of the scratch source file to
an exit code and a stderr text. `Execution.Spawn` stands for
`Popen(...).communicate()` and is defined from these two parts. The scratch contents are an argument because
every case is compiled with the same command line. Only the file written
before each compilation differs.

Modules, one per part of the script:

- `Lex`: Python 2 string order and `sorted()` on the catalog keys.
- `Execution`: `Popen` and `run_and_get_errors`, which starts one command and classifies its result.
- `Suite`: `run_tests`, which builds the compile command and the padded
  label, visits the cases in sorted order, and builds the failure map. Each
  compilation is recorded as a `Step` in a log.
- `Report`: `main`, which covers the version probe, `name_size`, both suite
  runs, the dump decision, the counts and the verdict.
- `Cli`: the `__main__` block, which handles `-v` and the usage exit.

## Model

| member | source | states |
|---|---|---|
| `Execution.RunAndGetErrors` | rosetta_compiler_test.py:131-139 | The `OSError` of a command that cannot be started propagates; nothing is classified then. Of a command that ran, exit code 0 means no error, whatever stderr holds. A non-zero exit with stderr reports exactly that stderr. A non-zero exit with empty stderr reports "UNKNOWN ERROR\n". So a failure never carries an empty diagnostic. |
| `Execution.ClassificationDependsOnExitAndStderr` | rosetta_compiler_test.py:134-139 | Two commands that agree on whether they started, on the exit code, and on stderr when they fail, classify identically. |
| `Execution.SameProgramSameStart` | rosetta_compiler_test.py:132 | Two command lines that name the same program either both raise `OSError` or both run. So the version probe and every compile command start or fail together. |
| `Lex.LessTotal` | rosetta_compiler_test.py:143 | Python string order is total: two distinct names are always ordered one way or the other. |
| `Lex.LessTransitive` | rosetta_compiler_test.py:143 | Python string order is transitive. |
| `Lex.LessIrreflexive` | rosetta_compiler_test.py:143 | No name sorts before itself. |
| `Lex.Insert` | rosetta_compiler_test.py:143 | Inserting a new name into a strictly sorted sequence keeps it strictly sorted and adds exactly that name. |
| `Lex.SortedNames` | rosetta_compiler_test.py:143 | `sorted(keys)` lists every key exactly once, in ascending order. |
| `Lex.SortedUnique` | rosetta_compiler_test.py:143 | Two strictly sorted sequences with the same names are equal. The visiting order depends only on the catalog's key set. |
| `Suite.CompileCommand` | rosetta_compiler_test.py:152 | The compile command is the user's arguments, unchanged and in order, followed by `rosetta_compiler_test.cc -o rosetta_compiler_test`. |
| `Suite.CompileCommandInjective` | rosetta_compiler_test.py:152 | The user's arguments can be read back from the compile command. |
| `Suite.Ljust` | rosetta_compiler_test.py:150 | `ljust` pads with blanks to the width and never shortens the text. |
| `Suite.ProgressLine` | rosetta_compiler_test.py:150-157 | The progress line is the padded label and a tab. Then comes "Pass.\n" exactly when the step is marked as passing, and "<<<FAILED!>>>\n" when it is marked failed. |
| `Suite.ProgressReportsCompile` | rosetta_compiler_test.py:150-157 | For a compiler that starts, a case's progress line ends in "Pass.\n" iff that case compiles. It ends in "<<<FAILED!>>>\n" iff the case fails. |
| `Suite.RunNames` | rosetta_compiler_test.py:143-157 | The loop makes one step per name, in the given order, with no early exit. Each step uses the user's command and that case's source. The failure map equals the reference `Failures` over the visited names. |
| `Suite.FailuresAddOne` | rosetta_compiler_test.py:153-155 | One more case adds an entry to the failure map exactly when that case fails, with its diagnostic as the value. |
| `Suite.PassCountComplements` | rosetta_compiler_test.py:153-157 | Over distinct names, the number of passing steps plus the size of the failure map equals the number of cases run. |
| `Suite.RunTests` | rosetta_compiler_test.py:141-158 | The run raises `OSError` exactly when there is a case to compile and the compiler cannot be started. Otherwise (`Suite.CompleteRun`) every catalog entry is compiled exactly once, in sorted order. The failure map's keys are exactly the failing cases, each mapped to its diagnostic. Each step holds that case's padded label, the user's compile command and that case's source. A step is marked failed iff its name is in the map. The pass count is the total minus the failures. |
| `Report.NameSize` | rosetta_compiler_test.py:171 | `name_size` is at least `len(name)+1` for every name and equals it for some name. It is absent (Python's `max` raises) only when there are no names. |
| `Report.NameSizeOfSameNames` | rosetta_compiler_test.py:171 | The width depends only on which names exist, not on their order or repetition. |
| `Report.NameSizeOfWidest` | rosetta_compiler_test.py:171 | A width that fits every label and is reached by one name is the computed `name_size`. |
| `Report.LabelsPadded` | rosetta_compiler_test.py:150 | When every name fits the padding, every label in a run's log is exactly that wide and starts with the name and colon. |
| `Report.LabelWidth` | rosetta_compiler_test.py:171 | Over both catalogs, the width fits every label and is reached by one of them. It is absent exactly when both catalogs are empty. |
| `Report.RosettaNameSize` | rosetta_compiler_test.py:171 | For the shipped catalog names, `name_size` is 17, the length of "INITIALIZER LIST:". |
| `Report.RosettaLabelsFit` | rosetta_compiler_test.py:21-125 | No shipped catalog name is longer than 16 characters. |
| `Report.ShowDetails` | rosetta_compiler_test.py:179 | The dump is never shown when nothing failed. When something failed, it is shown under `-v` or when every required case failed. Otherwise it is hidden. |
| `Report.VerdictOf` | rosetta_compiler_test.py:196-201 | Exactly one verdict. Any required failure gives "unsuitable", whatever the optional results. Otherwise any optional failure gives "standard only". Otherwise "congratulations". |
| `Report.FailureCount` | rosetta_compiler_test.py:196 | For a compiler that starts, a failure map is empty exactly when every case of its catalog compiles. |
| `Report.AllFail` | rosetta_compiler_test.py:179 | For a compiler that starts, the failure map is as large as its catalog exactly when every case fails. |
| `Report.ShowDetailsReflectsCompiles` | rosetta_compiler_test.py:179 | The dump is shown exactly when some case of either catalog fails and, in addition, `-v` is given or every required case fails. |
| `Report.VerdictReflectsCompiles` | rosetta_compiler_test.py:196-201 | The verdict follows from which cases fail: "unsuitable" iff some required case fails. "Standard only" iff all required cases compile and some optional case fails. "Congratulations" iff every case of both catalogs compiles. |
| `Report.RunStarted` | rosetta_compiler_test.py:173-176 | A `run_tests` call for a compiler that starts always completes (`Suite.CompleteRun`). When every name fits the padding, every label is exactly that wide. |
| `Report.RunSuites` | rosetta_compiler_test.py:173-201 | Once the compiler is known to start, both suites complete (`Suite.CompleteRun`): every case compiled once, in sorted order, with its own step and mark. Every label is exactly `name_size` wide. Each passed count equals total minus failures, lies in [0, total], and equals the number of passing steps. The dump decision and the verdict are taken from the two failure counts. |
| `Report.TestCompiler` | rosetta_compiler_test.py:161-201 | The run crashes with the probe's `OSError` iff the compiler cannot be started. It aborts with -1 and the probe's diagnostic iff the `[compiler, "--version"]` probe fails, before any case is compiled. It fails on the empty label list iff both catalogs are empty. Otherwise it completes with the widest label as padding. The summary's totals are the two catalog sizes. Both suites are complete runs in the sense of `Suite.CompleteRun`, and the summary facts above hold. |
| `Cli.IndexOf` | rosetta_compiler_test.py:207 | Returns the position of the first occurrence. |
| `Cli.RemoveFirst` | rosetta_compiler_test.py:207 | `list.remove` deletes exactly the first occurrence and keeps the other elements in order. |
| `Cli.RemoveFirstTakesOne` | rosetta_compiler_test.py:207 | Removal takes out exactly one copy of the element and adds nothing. |
| `Cli.ParseArgs` | rosetta_compiler_test.py:203-214 | Verbose mode is on iff `-v` occurs. Usage with exit -1 iff exactly the script path remains after removing `-v`. `main([])` raises `IndexError` iff `argv` is `["-v"]`. In every other case `main` gets at least one argument. `main` gets `argv` with its first `-v` removed and then its first element dropped, the rest in order. This holds even when the script's own path is `-v`. |

## Left out

- Process spawning, pipes and `communicate()` are replaced by the oracle. Standard output of the compiler is ignored, as in the script.
- `Popen([])` fails with `IndexError` before it tries to start anything. The model does not classify that case: `Execution.RunAndGetErrors` requires a non-empty command. Every command the script builds has at least two elements.
- Whether `Popen` can start a command is assumed to depend on the program path alone, and not to change during one run. So an `OSError` can only come from the probe. The compile commands name the same program, so once the probe has run they start too.
- An uncaught `OSError` is modelled as `Outcome.Crashed`. The traceback it prints and the exit status 1 are not modelled.
- `Suite.RunTests` returns `SpawnFailed` without a log. Before the `OSError` the script has already written the first case's source and printed its label, and neither is modelled.
- Writing the scratch `.cc` file is modelled as the oracle's second argument, which is the case's source text. Its side effects on disk are not modelled.
- Printing is left out. The progress line is modelled as a string built from the label and a `Mark` (`Suite.ProgressLine`). The verdict is modelled as `Report.Verdict`, but its three sentences are not. The header lines, the `' '.join(arguments)` line and the summary layout are not modelled.
- The order in which the detailed dump lists failures is not modelled, because the script iterates unordered dictionaries there. The model only records whether the dump is shown.
- `exit(-1)` is modelled as the value -1 in `Outcome.Aborted` and `Invocation.Usage`. Its mapping to the process status 255 is not modelled.
- The C++ snippets in `TESTS`/`OPTIONAL_TESTS` are opaque strings. Only the names are modelled (`Report.RosettaRequiredNames`, `Report.RosettaOptionalNames`). Whether a snippet compiles is up to the oracle.
- `rosetta_compiler_test.cc` is a standalone fixture that the script overwrites on each case. Its contents are not part of this model.
- Strings are sequences of characters, and `len` counts characters. This agrees with Python 2 byte strings for the ASCII names the catalogs use.
- The script does not run the compiled binary, has no `-h`/`--help` option and does not probe the standard library's version. So the model has none of these either.

=== FILE: cli.dfy ===
/** The script's entry block: strip `-v`, refuse an invocation that names no
    compiler, and hand the rest to `main`. */
module Cli {

  /** Position of the first occurrence of `x` in `s`. */
  function IndexOf(s: seq<string>, x: string): (i: nat)
    requires x in s
    ensures i < |s| && s[i] == x
    ensures x !in s[..i]
  {
    if s[0] == x then 0 else 1 + IndexOf(s[1..], x)
  }

  /** Python's `list.remove(x)`: drops the first occurrence of `x` and keeps
      the order of everything else. It raises when `x` is missing, which the
      script rules out by testing membership first. */
  function RemoveFirst(s: seq<string>, x: string): (r: seq<string>)
    requires x in s
    ensures |r| == |s| - 1
    ensures r == s[..IndexOf(s, x)] + s[IndexOf(s, x) + 1..]
  {
    assert s == [s[0]] + s[1..];
    if s[0] == x then s[1..]
    else
      var rest := RemoveFirst(s[1..], x);
      var i := IndexOf(s[1..], x);
      assert IndexOf(s, x) == i + 1;
      assert s[..i + 1] == [s[0]] + s[1..][..i];
      assert s[i + 2..] == s[1..][i + 1..];
      [s[0]] + rest
  }

  /** Removing puts nothing new in and takes exactly one `x` out. */
  lemma RemoveFirstTakesOne(s: seq<string>, x: string)
    requires x in s
    ensures multiset(RemoveFirst(s, x)) + multiset{x} == multiset(s)
  {
    var i := IndexOf(s, x);
    assert s == s[..i] + [x] + s[i + 1..];
  }

  /** What the entry block does with the command line. */
  datatype Invocation =
    | Usage(exitCode: int)                        // prints the docstring and exits
    | IndexError                                  // `main([])` fails on `arguments[0]`
    | Test(arguments: seq<string>, verbose: bool) // `main(arguments, verbose)`

  /** `sys.argv` handling; `argv[0]` is the script's own name, so the list
      is never empty. */
  function ParseArgs(argv: seq<string>): (inv: Invocation)
    requires |argv| >= 1
    // `-v` anywhere switches on the detailed dump
    ensures inv.Test? ==> inv.verbose == ("-v" in argv)
    // no compiler named: usage text and exit code -1
    ensures inv.Usage? <==> |argv| == (if "-v" in argv then 2 else 1)
    ensures inv.Usage? ==> inv.exitCode == -1
    // only a script itself called "-v", run with no arguments, reaches `main([])`
    ensures inv.IndexError? <==> argv == ["-v"]
    // `main` always gets a compiler to probe
    ensures inv.Test? ==> |inv.arguments| >= 1
    // the user's arguments reach `main` in order, minus the first `-v`
    ensures inv.Test? && "-v" !in argv ==> inv.arguments == argv[1..]
    ensures inv.Test? && "-v" in argv ==> inv.arguments == RemoveFirst(argv, "-v")[1..]
    // in particular the script's own path is never taken for `-v` unless it is one
    ensures inv.Test? && "-v" in argv && argv[0] != "-v" ==> inv.arguments == RemoveFirst(argv[1..], "-v")
  {
    var verbose := "-v" in argv;
    var rest := if verbose then RemoveFirst(argv, "-v") else argv;
    if |rest| == 1 then Usage(-1)
    else if |rest| == 0 then IndexError
    else Test(rest[1..], verbose)
  }
}

=== FILE: execution.dfy ===
/** Running one external command and reading its outcome. The process itself
    (spawning, waiting, capturing the pipes) is outside the model: an `Oracle`
    stands for the operating system and the compiler. It says which program
    paths can be started at all and, for a started command line and the
    current contents of the scratch source file, what the process reports. */
module Execution {

  /** Exit status and captured standard error of a process that ran. */
  datatype Exit = Exit(code: int, stderr: string)

  /** The world the tool runs in. Whether `Popen` can start a program depends
      on its path alone; what the program then reports depends on its whole
      command line and the scratch file. Deterministic, as the tool assumes
      of one call. */
  datatype Oracle = Oracle(startable: string -> bool, exec: (seq<string>, string) -> Exit)

  /** What `Popen(...).communicate()` yields: the process ran and exited, or
      it could not be started and `Popen` raised `OSError`. */
  datatype ProcessResult = Exited(exitCode: int, stderr: string) | NotStarted

  /** Starts `command` with the scratch file holding `scratch`. `Popen`
      reads the program from the first element, so the command is never
      empty. */
  function Spawn(run: Oracle, command: seq<string>, scratch: string): (p: ProcessResult)
    requires command != []
    ensures p.NotStarted? <==> !run.startable(command[0])
    ensures p.Exited? ==> p.exitCode == run.exec(command, scratch).code
                          && p.stderr == run.exec(command, scratch).stderr
  {
    if !run.startable(command[0]) then NotStarted
    else Exited(run.exec(command, scratch).code, run.exec(command, scratch).stderr)
  }

  /** The outcome of `run_and_get_errors`: `None` in the source, the text
      the caller records as the failure's diagnostic, or the `OSError` that
      `Popen` raised and that the function does not catch. */
  datatype Diagnosis = NoError | Error(message: string) | Raised

  /** The diagnostic used when a command fails without writing to stderr. */
  const UnknownError: string := "UNKNOWN ERROR\n"

  /** Runs `command` once and classifies the result. */
  function RunAndGetErrors(run: Oracle, command: seq<string>, scratch: string): (d: Diagnosis)
    requires command != []
    // a program that cannot be started makes `Popen` raise, uncaught
    ensures d.Raised? <==> Spawn(run, command, scratch).NotStarted?
    // success is decided by the exit code alone; stderr is ignored then
    ensures d.NoError? <==> Spawn(run, command, scratch).Exited? && Spawn(run, command, scratch).exitCode == 0
    // a failure that wrote to stderr reports exactly that text
    ensures d.Error? && Spawn(run, command, scratch).stderr != [] ==> d.message == Spawn(run, command, scratch).stderr
    // a silent failure reports the fixed marker
    ensures d.Error? && Spawn(run, command, scratch).stderr == [] ==> d.message == UnknownError
    // so a failure never carries an empty diagnostic
    ensures d.Error? ==> |d.message| > 0
  {
    var p := Spawn(run, command, scratch);
    if p.NotStarted? then Raised
    else if p.exitCode == 0 then NoError
    else if p.stderr != [] then Error(p.stderr)
    else Error(UnknownError)
  }

  /** Two runs that agree on whether they started, on the exit code, and on
      stderr when they fail, classify the same way: nothing else the
      process does matters. */
  lemma ClassificationDependsOnExitAndStderr(run1: Oracle, c1: seq<string>, s1: string,
                                             run2: Oracle, c2: seq<string>, s2: string)
    requires c1 != [] && c2 != []
    requires Spawn(run1, c1, s1).NotStarted? == Spawn(run2, c2, s2).NotStarted?
    requires Spawn(run1, c1, s1).Exited? ==>
               && Spawn(run1, c1, s1).exitCode == Spawn(run2, c2, s2).exitCode
               && (Spawn(run1, c1, s1).exitCode != 0 ==> Spawn(run1, c1, s1).stderr == Spawn(run2, c2, s2).stderr)
    ensures RunAndGetErrors(run1, c1, s1) == RunAndGetErrors(run2, c2, s2)
  {
  }

  /** Two command lines that name the same program either both start or
      both make `Popen` raise. */
  lemma SameProgramSameStart(run: Oracle, c1: seq<string>, s1: string, c2: seq<string>, s2: string)
    requires c1 != [] && c2 != [] && c1[0] == c2[0]
    ensures RunAndGetErrors(run, c1, s1).Raised? <==> RunAndGetErrors(run, c2, s2).Raised?
  {
  }
}

=== FILE: lex.dfy ===
/** Python 2 `str` ordering, as used by `sorted()` on the catalog names, and
    sorted sequences of distinct names. */
module Lex {

  /** Strict lexicographic order on strings: the first differing character
      decides, and a proper prefix sorts before any of its extensions. */
  predicate Less(a: string, b: string)
    decreases |a|
  {
    if |b| == 0 then false
    else if |a| == 0 then true
    else if a[0] != b[0] then a[0] < b[0]
    else Less(a[1..], b[1..])
  }

  lemma {:induction false} LessIrreflexive(a: string)
    ensures !Less(a, a)
    decreases |a|
  {
    if |a| > 0 {
      LessIrreflexive(a[1..]);
    }
  }

  lemma {:induction false} LessTransitive(a: string, b: string, c: string)
    requires Less(a, b) && Less(b, c)
    ensures Less(a, c)
    decreases |a|
  {
    if |a| > 0 && a[0] == b[0] && b[0] == c[0] {
      LessTransitive(a[1..], b[1..], c[1..]);
    }
  }

  /** Any two distinct strings are ordered one way or the other. */
  lemma {:induction false} LessTotal(a: string, b: string)
    ensures a == b || Less(a, b) || Less(b, a)
    decreases |a|
  {
    if |a| > 0 && |b| > 0 && a[0] == b[0] {
      LessTotal(a[1..], b[1..]);
      if a[1..] == b[1..] {
        assert a == [a[0]] + a[1..] && b == [b[0]] + b[1..];
      }
    }
  }

  lemma LessAsymmetric(a: string, b: string)
    requires Less(a, b)
    ensures !Less(b, a)
  {
    if Less(b, a) {
      LessTransitive(a, b, a);
      LessIrreflexive(a);
    }
  }

  function Elements(s: seq<string>): set<string>
  {
    set x | x in s
  }

  lemma NoElements(s: seq<string>)
    ensures Elements(s) == {} ==> s == []
  {
    if s != [] {
      assert s[0] in Elements(s);
    }
  }

  lemma ElementsCons(s: seq<string>)
    requires s != []
    ensures Elements(s) == {s[0]} + Elements(s[1..])
  {
    assert s == [s[0]] + s[1..];
  }

  /** Ascending with no repetitions: the order `sorted()` gives to the keys
      of a dictionary. */
  predicate StrictlySorted(s: seq<string>)
  {
    forall i, j :: 0 <= i < j < |s| ==> Less(s[i], s[j])
  }

  /** Puts a new name into its place in a sorted sequence. */
  function Insert(s: seq<string>, x: string): (r: seq<string>)
    requires StrictlySorted(s)
    requires x !in s
    ensures StrictlySorted(r)
    ensures Elements(r) == Elements(s) + {x}
    ensures |r| == |s| + 1
  {
    if s == [] then [x]
    else if Less(x, s[0]) then
      assert StrictlySorted([x] + s) by {
        forall j | 0 < j < |s| {
          LessTransitive(x, s[0], s[j]);
        }
      }
      [x] + s
    else
      var rest := Insert(s[1..], x);
      assert StrictlySorted([s[0]] + rest) by {
        LessTotal(x, s[0]);
        forall j | 0 <= j < |rest| ensures Less(s[0], rest[j]) {
          assert rest[j] in Elements(rest);
          if rest[j] != x {
            var k :| 0 <= k < |s[1..]| && s[1..][k] == rest[j];
            assert s[k + 1] == rest[j];
          }
        }
      }
      [s[0]] + rest
  }

  /** A sorted sequence of distinct names is determined by its set of names:
      the visiting order depends on the catalog's keys only, never on how the
      catalog was built. */
  lemma {:induction false} SortedUnique(a: seq<string>, b: seq<string>)
    requires StrictlySorted(a) && StrictlySorted(b)
    requires Elements(a) == Elements(b)
    ensures a == b
    decreases |a|
  {
    if a == [] {
      NoElements(b);
    } else {
      assert a[0] in Elements(b);
      assert b != [];
      assert b[0] in Elements(a);
      var k :| 0 <= k < |b| && b[k] == a[0];
      var m :| 0 <= m < |a| && a[m] == b[0];
      if k != 0 {
        assert Less(b[0], a[0]);
        if m == 0 {
          LessIrreflexive(a[0]);
        } else {
          LessAsymmetric(a[0], b[0]);
        }
        assert false;
      }
      assert Elements(a[1..]) == Elements(a) - {a[0]} by {
        forall x | x in a[1..] ensures x != a[0] {
          var i :| 0 <= i < |a[1..]| && a[1..][i] == x;
          assert a[i + 1] == x;
          LessIrreflexive(a[0]);
        }
        assert a == [a[0]] + a[1..];
      }
      assert Elements(b[1..]) == Elements(b) - {b[0]} by {
        forall x | x in b[1..] ensures x != b[0] {
          var i :| 0 <= i < |b[1..]| && b[1..][i] == x;
          assert b[i + 1] == x;
          LessIrreflexive(b[0]);
        }
        assert b == [b[0]] + b[1..];
      }
      SortedUnique(a[1..], b[1..]);
      assert a == [a[0]] + a[1..] && b == [b[0]] + b[1..];
    }
  }

  /** `sorted(keys)`: every key exactly once, in ascending order. */
  method SortedNames(keys: set<string>) returns (names: seq<string>)
    ensures StrictlySorted(names)
    ensures Elements(names) == keys
    ensures |names| == |keys|
  {
    names := [];
    var rest := keys;
    while rest != {}
      invariant StrictlySorted(names)
      invariant Elements(names) !! rest
      invariant Elements(names) + rest == keys
      invariant |names| + |rest| == |keys|
      decreases |rest|
    {
      var x :| x in rest;
      names := Insert(names, x);
      rest := rest - {x};
    }
  }
}

=== FILE: report.dfy ===
/** `main`: the version probe, the label width, both suite runs and the
    summary decisions. The text it prints is left out; what it decides is
    returned as an `Outcome`. */
module Report {
  import opened Lex
  import opened Execution
  import opened Suite

  datatype Option<T> = None | Some(value: T)

  /** `name_size`: the widest `name + ':'` label over the given names.
      Python's `max` raises on an empty list, hence `None`. */
  function NameSize(names: seq<string>): (w: Option<nat>)
    ensures w.None? <==> names == []
    ensures w.Some? ==> forall n :: n in names ==> |n| + 1 <= w.value
    ensures w.Some? ==> exists n :: n in names && |n| + 1 == w.value
  {
    if names == [] then None
    else
      match NameSize(names[1..])
      case None => Some(|names[0]| + 1)
      case Some(m) => Some(if |names[0]| + 1 >= m then |names[0]| + 1 else m)
  }

  /** The width depends on which names there are, not on their order or
      repetitions, so iterating the dictionaries in any order gives it. */
  lemma NameSizeOfSameNames(a: seq<string>, b: seq<string>)
    requires Elements(a) == Elements(b)
    ensures NameSize(a) == NameSize(b)
  {
    NoElements(a);
    NoElements(b);
    if a != [] {
      var w := NameSize(a).value;
      var x :| x in a && |x| + 1 == w;
      assert x in Elements(b);
      forall n | n in b
        ensures |n| + 1 <= w
      {
        assert n in Elements(a);
      }
      NameSizeOfWidest(b, x, w);
    }
  }

  /** Whether the detailed error messages are printed. */
  function ShowDetails(verbose: bool, requiredFailures: nat, requiredTotal: nat, optionalFailures: nat): (show: bool)
    // nothing to show when nothing failed
    ensures show ==> requiredFailures + optionalFailures > 0
    // with something to show, `-v` always shows it
    ensures verbose && requiredFailures + optionalFailures > 0 ==> show
    // so does a required suite that failed completely
    ensures requiredFailures == requiredTotal && requiredFailures + optionalFailures > 0 ==> show
    // otherwise it stays hidden
    ensures !verbose && requiredFailures != requiredTotal ==> !show
  {
    (verbose || requiredFailures == requiredTotal) && (requiredFailures != 0 || optionalFailures != 0)
  }

  /** The closing verdict. */
  datatype Verdict = Unsuitable | StandardOnly | Congratulations

  function VerdictOf(requiredFailures: nat, optionalFailures: nat): (v: Verdict)
    // any required failure decides it, whatever the optional results
    ensures v == Unsuitable <==> requiredFailures > 0
    ensures v == StandardOnly <==> requiredFailures == 0 && optionalFailures > 0
    ensures v == Congratulations <==> requiredFailures == 0 && optionalFailures == 0
  {
    if requiredFailures != 0 then Unsuitable
    else if optionalFailures != 0 then StandardOnly
    else Congratulations
  }

  /** The two "X of Y passed" counts, the dump decision and the verdict. */
  datatype Summary = Summary(requiredPassed: int, requiredTotal: nat,
                             optionalPassed: int, optionalTotal: nat,
                             showDetails: bool, verdict: Verdict)

  /** How a run of the tool ends. */
  datatype Outcome =
    | Crashed                                      // `Popen` raised `OSError` for the probe
    | Aborted(exitCode: int, diagnostic: string)   // the version probe failed
    | EmptyCatalogs                                // `max` of no names raised
    | Completed(nameSize: nat, required: SuiteRun, optional: SuiteRun, summary: Summary)

  /** The probe that checks the compiler runs at all. */
  function VersionProbe(compiler: string): seq<string>
  {
    [compiler, "--version"]
  }

  /** Whether `w` is `name_size` for these catalogs: the widest label. */
  ghost predicate IsNameSize(w: nat, required: Catalog, optional: Catalog)
  {
    && (forall n :: n in required || n in optional ==> |n| + 1 <= w)
    && (exists n :: (n in required || n in optional) && |n| + 1 == w)
  }

  /** `name_size` over the keys of both catalogs, taken in sorted order
      (`NameSizeOfSameNames`: any order gives the same width). */
  method LabelWidth(required: Catalog, optional: Catalog) returns (w: Option<nat>)
    ensures w.None? <==> |required| == 0 && |optional| == 0
    ensures w.Some? ==> IsNameSize(w.value, required, optional)
  {
    var all := SortedNames(required.Keys + optional.Keys);
    w := NameSize(all);
    NoElements(all);
    assert forall n :: n in required || n in optional ==> n in Elements(all);
    if w.Some? {
      var m :| m in all && |m| + 1 == w.value;
      assert m in Elements(all);
    }
  }

  /** One `run_tests` call for a compiler that starts: it completes, with
      every label padded to exactly `w`. */
  method RunStarted(tests: Catalog, arguments: seq<string>, w: nat, run: Oracle) returns (s: SuiteRun)
    requires Starts(run, arguments)
    requires forall n :: n in tests ==> |n| + 1 <= w
    ensures CompleteRun(tests, arguments, w, run, s)
    ensures forall i :: 0 <= i < |s.log| ==> |s.log[i].padded| == w
  {
    var r := RunTests(tests, arguments, w, run);
    s := r.suite;
    LabelsPadded(tests, w, s.log);
  }

  /** Both `run_tests` calls of `main` and the summary after them. They are
      reached only once the version probe has started the same compiler. */
  method RunSuites(arguments: seq<string>, verbose: bool, required: Catalog, optional: Catalog,
                   run: Oracle, w: nat) returns (req: SuiteRun, opt: SuiteRun, summary: Summary)
    requires Starts(run, arguments)
    requires forall n :: n in required || n in optional ==> |n| + 1 <= w
    // both suites run to completion with the same padding
    ensures CompleteRun(required, arguments, w, run, req)
    ensures CompleteRun(optional, arguments, w, run, opt)
    // every printed label is exactly `w` wide
    ensures forall i :: 0 <= i < |req.log| ==> |req.log[i].padded| == w
    ensures forall i :: 0 <= i < |opt.log| ==> |opt.log[i].padded| == w
    // the counts: passed is total minus failures, and is what passed
    ensures summary.requiredTotal == |required| && summary.optionalTotal == |optional|
    ensures 0 <= summary.requiredPassed <= |required| && 0 <= summary.optionalPassed <= |optional|
    ensures summary.requiredPassed == |required| - |req.errors| == PassCount(req.log)
    ensures summary.optionalPassed == |optional| - |opt.errors| == PassCount(opt.log)
    // the dump decision and the verdict
    ensures summary.showDetails == ShowDetails(verbose, |req.errors|, |required|, |opt.errors|)
    ensures summary.verdict == VerdictOf(|req.errors|, |opt.errors|)
  {
    req := RunStarted(required, arguments, w, run);
    opt := RunStarted(optional, arguments, w, run);
    summary := Summary(|required| - |req.errors|, |required|,
                       |optional| - |opt.errors|, |optional|,
                       ShowDetails(verbose, |req.errors|, |required|, |opt.errors|),
                       VerdictOf(|req.errors|, |opt.errors|));
  }

  /** When every name's label fits the padding, every label in a completed
      run is padded to exactly that width and keeps the name and colon in
      front. */
  lemma LabelsPadded(tests: Catalog, w: nat, log: seq<Step>)
    requires forall n :: n in tests ==> |n| + 1 <= w
    requires forall i :: 0 <= i < |log| ==> log[i].name in tests && log[i].padded == Ljust(log[i].name + ":", w)
    ensures forall i :: 0 <= i < |log| ==> |log[i].padded| == w
    ensures forall i :: 0 <= i < |log| ==> log[i].padded[..|log[i].name| + 1] == log[i].name + ":"
  {
  }

  /** `main(arguments, verbose)` over catalogs `required` (TESTS) and
      `optional` (OPTIONAL_TESTS); `leftover` is whatever the scratch source
      file holds before the run. */
  method TestCompiler(arguments: seq<string>, verbose: bool, required: Catalog, optional: Catalog,
                      run: Oracle, leftover: string) returns (o: Outcome)
    requires |arguments| >= 1
    // a compiler path that cannot be started crashes the probe itself
    ensures o.Crashed? <==> RunAndGetErrors(run, VersionProbe(arguments[0]), leftover).Raised?
    // a probe that runs but fails aborts with -1 before any case is compiled
    ensures o.Aborted? <==> RunAndGetErrors(run, VersionProbe(arguments[0]), leftover).Error?
    ensures o.Aborted? ==>
              o.exitCode == -1 && o.diagnostic == RunAndGetErrors(run, VersionProbe(arguments[0]), leftover).message
    // `max` over no names at all raises
    ensures o.EmptyCatalogs? <==>
              RunAndGetErrors(run, VersionProbe(arguments[0]), leftover).NoError? && |required| == 0 && |optional| == 0
    // otherwise both suites run with the widest label as padding
    ensures o.Completed? ==> IsNameSize(o.nameSize, required, optional)
    ensures o.Completed? ==>
              && (forall i :: 0 <= i < |o.required.log| ==> |o.required.log[i].padded| == o.nameSize)
              && (forall i :: 0 <= i < |o.optional.log| ==> |o.optional.log[i].padded| == o.nameSize)
    // both suites ran to completion
    ensures o.Completed? ==>
              && CompleteRun(required, arguments, o.nameSize, run, o.required)
              && CompleteRun(optional, arguments, o.nameSize, run, o.optional)
    ensures o.Completed? ==>
              o.summary.requiredTotal == |required| && o.summary.optionalTotal == |optional|
    ensures o.Completed? ==>
              && o.summary.requiredPassed + |o.required.errors| == |required|
              && o.summary.optionalPassed + |o.optional.errors| == |optional|
    ensures o.Completed? ==>
              o.summary.showDetails == ShowDetails(verbose, |o.required.errors|, |required|, |o.optional.errors|)
    ensures o.Completed? ==> o.summary.verdict == VerdictOf(|o.required.errors|, |o.optional.errors|)
  {
    var probe := RunAndGetErrors(run, VersionProbe(arguments[0]), leftover);
    if probe.Raised? {
      return Crashed;
    }
    if probe.Error? {
      return Aborted(-1, probe.message);
    }
    var size := LabelWidth(required, optional);
    if size.None? {
      return EmptyCatalogs;
    }
    var w := size.value;
    assert CompileCommand(arguments)[0] == arguments[0];
    var req, opt, summary := RunSuites(arguments, verbose, required, optional, run, w);
    o := Completed(w, req, opt, summary);
  }

  /** The verdict of a completed run, read off which cases fail to compile:
      one failing required case makes the compiler unsuitable, and only a
      run where every case of both catalogs compiles earns the
      congratulations. */
  lemma VerdictReflectsCompiles(required: Catalog, optional: Catalog, arguments: seq<string>, run: Oracle)
    requires Starts(run, arguments)
    ensures VerdictOf(|Failures(required, arguments, run, required.Keys)|,
                      |Failures(optional, arguments, run, optional.Keys)|) == Unsuitable
            <==> exists n :: n in required && Diagnose(required, arguments, run, n).Error?
    ensures VerdictOf(|Failures(required, arguments, run, required.Keys)|,
                      |Failures(optional, arguments, run, optional.Keys)|) == StandardOnly
            <==> && (forall n :: n in required ==> Diagnose(required, arguments, run, n).NoError?)
                 && (exists n :: n in optional && Diagnose(optional, arguments, run, n).Error?)
    ensures VerdictOf(|Failures(required, arguments, run, required.Keys)|,
                      |Failures(optional, arguments, run, optional.Keys)|) == Congratulations
            <==> && (forall n :: n in required ==> Diagnose(required, arguments, run, n).NoError?)
                 && (forall n :: n in optional ==> Diagnose(optional, arguments, run, n).NoError?)
  {
    FailureCount(required, arguments, run, Failures(required, arguments, run, required.Keys));
    FailureCount(optional, arguments, run, Failures(optional, arguments, run, optional.Keys));
  }

  /** The failure map is empty exactly when every case compiles. */
  lemma FailureCount(tests: Catalog, arguments: seq<string>, run: Oracle, errors: map<string, string>)
    requires Starts(run, arguments)
    requires errors == Failures(tests, arguments, run, tests.Keys)
    ensures |errors| == 0 <==> forall n :: n in tests ==> Diagnose(tests, arguments, run, n).NoError?
  {
    forall n | n in tests && Diagnose(tests, arguments, run, n).Error?
      ensures n in errors
    {
    }
    if |errors| != 0 {
      var k :| k in errors;
    }
  }

  /** The dump decision read off the compile results: with `-v`, or when
      no required case compiles, the messages are printed as soon as any
      case of either catalog fails; otherwise they stay hidden. */
  lemma ShowDetailsReflectsCompiles(verbose: bool, required: Catalog, optional: Catalog,
                                    arguments: seq<string>, run: Oracle)
    requires Starts(run, arguments)
    ensures ShowDetails(verbose, |Failures(required, arguments, run, required.Keys)|, |required|,
                        |Failures(optional, arguments, run, optional.Keys)|)
            <==> && (verbose || forall n :: n in required ==> Diagnose(required, arguments, run, n).Error?)
                 && ((exists n :: n in required && Diagnose(required, arguments, run, n).Error?)
                     || (exists n :: n in optional && Diagnose(optional, arguments, run, n).Error?))
  {
    FailureCount(required, arguments, run, Failures(required, arguments, run, required.Keys));
    FailureCount(optional, arguments, run, Failures(optional, arguments, run, optional.Keys));
    AllFail(required, arguments, run);
  }

  /** The failure map covers the whole catalog exactly when every case
      fails to compile. */
  lemma AllFail(tests: Catalog, arguments: seq<string>, run: Oracle)
    requires Starts(run, arguments)
    ensures |Failures(tests, arguments, run, tests.Keys)| == |tests|
            <==> forall n :: n in tests ==> Diagnose(tests, arguments, run, n).Error?
  {
    var errors := Failures(tests, arguments, run, tests.Keys);
    if forall n :: n in tests ==> Diagnose(tests, arguments, run, n).Error? {
      assert errors.Keys == tests.Keys;
    } else {
      var m :| m in tests && !Diagnose(tests, arguments, run, m).Error?;
      SubsetSize(errors.Keys, tests.Keys - {m});
    }
  }

  lemma {:induction false} SubsetSize(a: set<string>, b: set<string>)
    requires a <= b
    ensures |a| <= |b|
    decreases |b|
  {
    if a != {} {
      var x :| x in a;
      SubsetSize(a - {x}, b - {x});
    }
  }

  /** The names of the two catalogs the tool ships with (TESTS and
      OPTIONAL_TESTS); their C++ sources are opaque here. */
  const RosettaRequiredNames: seq<string> :=
    ["AUTO", "RANGE FOR", "MAP AT()", "INITIALIZER LIST", "UNORDERED MAP",
     "SMART POINTERS", "NULLPTR", "MOVE", "LAMBDA"]
  const RosettaOptionalNames: seq<string> := ["THREAD LOCAL", "REGEX"]

  /** With the shipped catalogs every label is padded to 17 characters, the
      width of "INITIALIZER LIST:". */
  lemma RosettaNameSize()
    ensures NameSize(RosettaRequiredNames + RosettaOptionalNames) == Some(17)
  {
    RosettaLabelsFit();
    NameSizeOfWidest(RosettaRequiredNames + RosettaOptionalNames, "INITIALIZER LIST", 17);
  }

  /** A width that fits every label and is reached by `widest` is the one
      `NameSize` computes. */
  lemma NameSizeOfWidest(names: seq<string>, widest: string, w: nat)
    requires forall n :: n in names ==> |n| + 1 <= w
    requires widest in names && |widest| + 1 == w
    ensures NameSize(names) == Some(w)
  {
  }

  lemma RosettaLabelsFit()
    ensures forall n :: n in RosettaRequiredNames + RosettaOptionalNames ==> |n| + 1 <= 17
  {
    var names := RosettaRequiredNames + RosettaOptionalNames;
    forall n | n in names
      ensures |n| + 1 <= 17
    {
      var i :| 0 <= i < |names| && names[i] == n;
      if i < 9 {
        assert n == RosettaRequiredNames[i];
      } else {
        assert n == RosettaOptionalNames[i - 9];
      }
    }
  }
}

=== FILE: suite.dfy ===
/** `run_tests`: compile every case of one catalog, in sorted name order, and
    collect the failures. Writing the snippet to the scratch file and the
    progress output are modelled as data: each compilation leaves a `Step`
    in the run's log, holding the scratch-file contents the compiler saw and
    the progress line's label and marker. */
module Suite {
  import opened Lex
  import opened Execution

  /** The scratch source file every snippet is written to. */
  const ScratchSource: string := "rosetta_compiler_test.cc"
  /** The binary the compiler is asked to produce. */
  const ScratchBinary: string := "rosetta_compiler_test"

  /** A catalog of feature cases: name to C++ source text. */
  type Catalog = map<string, string>

  /** The command line for one case: the user's compiler and flags, then the
      scratch file and the output binary. */
  function CompileCommand(arguments: seq<string>): (command: seq<string>)
    ensures |command| == |arguments| + 3
    ensures command[..|arguments|] == arguments
    ensures command[|arguments|..] == [ScratchSource, "-o", ScratchBinary]
  {
    arguments + [ScratchSource, "-o", ScratchBinary]
  }

  /** The user's part of a compile command can be read back from it, so two
      different invocations never produce the same compile command. */
  lemma CompileCommandInjective(a: seq<string>, b: seq<string>)
    requires CompileCommand(a) == CompileCommand(b)
    ensures a == b
  {
    assert |a| == |b|;
    assert a == CompileCommand(a)[..|a|];
  }

  function Spaces(n: nat): (r: string)
    ensures |r| == n
    ensures forall i :: 0 <= i < n ==> r[i] == ' '
  {
    seq(n, _ => ' ')
  }

  /** Python's `str.ljust(width)`: pads with blanks up to `width` and never
      shortens the text. */
  function Ljust(s: string, width: int): (r: string)
    ensures |r| == if width <= |s| then |s| else width
    ensures r[..|s|] == s
    ensures forall i :: |s| <= i < |r| ==> r[i] == ' '
  {
    if width <= |s| then s else s + Spaces(width - |s|)
  }

  /** The marker written after a case's label. */
  datatype Mark = Pass | Failed

  function MarkText(m: Mark): string
  {
    match m
    case Pass => "Pass.\n"
    case Failed => "<<<FAILED!>>>\n"
  }

  /** One compilation: which case, the label printed for it, the command
      issued, the scratch-file contents at that moment and the marker. */
  datatype Step = Step(name: string, padded: string, command: seq<string>, source: string, mark: Mark)

  /** The progress line a step prints: the padded label, a tab, then
      "Pass." for a passing case and the failure marker otherwise. */
  function ProgressLine(step: Step): (line: string)
    ensures |line| > |step.padded| + 1
    ensures line[..|step.padded|] == step.padded && line[|step.padded|] == '\t'
    ensures line[|step.padded| + 1..] == "Pass.\n" <==> step.mark == Pass
    ensures step.mark == Failed ==> line[|step.padded| + 1..] == "<<<FAILED!>>>\n"
    ensures line[|line| - 1] == '\n'
  {
    step.padded + "\t" + MarkText(step.mark)
  }

  /** Whether `Popen` can start the program a compile command names: the
      user's compiler, the first of the arguments. */
  predicate Starts(run: Oracle, arguments: seq<string>)
  {
    run.startable(CompileCommand(arguments)[0])
  }

  /** The classification of compiling case `name` of `tests`. */
  function Diagnose(tests: Catalog, arguments: seq<string>, run: Oracle, name: string): Diagnosis
    requires name in tests
  {
    RunAndGetErrors(run, CompileCommand(arguments), tests[name])
  }

  /** The step that compiling case `name` produces. */
  function StepFor(tests: Catalog, arguments: seq<string>, padding: int, run: Oracle, name: string): Step
    requires name in tests
  {
    Step(name, Ljust(name + ":", padding), CompileCommand(arguments), tests[name],
         if Diagnose(tests, arguments, run, name).NoError? then Pass else Failed)
  }

  /** The progress line of a case reports "Pass." exactly when that case
      compiles, and the failure marker exactly when it fails to. */
  lemma ProgressReportsCompile(tests: Catalog, arguments: seq<string>, padding: int, run: Oracle, name: string)
    requires name in tests
    requires Starts(run, arguments)
    ensures var n := |Ljust(name + ":", padding)|;
            && (ProgressLine(StepFor(tests, arguments, padding, run, name))[n + 1..] == "Pass.\n"
                <==> Diagnose(tests, arguments, run, name).NoError?)
            && (ProgressLine(StepFor(tests, arguments, padding, run, name))[n + 1..] == "<<<FAILED!>>>\n"
                <==> Diagnose(tests, arguments, run, name).Error?)
  {
    var line := ProgressLine(StepFor(tests, arguments, padding, run, name));
    var n := |Ljust(name + ":", padding)|;
    if line[n + 1..] == "<<<FAILED!>>>\n" {
      assert line[n + 1..][0] != "Pass.\n"[0];
    }
  }

  /** Reference definition of the failure map over the cases named in
      `among`: exactly the failing ones, each with its diagnostic. */
  function Failures(tests: Catalog, arguments: seq<string>, run: Oracle, among: set<string>): map<string, string>
  {
    map n | n in among && n in tests && Diagnose(tests, arguments, run, n).Error?
      :: Diagnose(tests, arguments, run, n).message
  }

  /** What one suite run leaves behind: the failure map and the log. */
  datatype SuiteRun = SuiteRun(errors: map<string, string>, log: seq<Step>)

  /** The case names in the order they were compiled. */
  function Visited(log: seq<Step>): (names: seq<string>)
    ensures |names| == |log|
    ensures forall i :: 0 <= i < |log| ==> names[i] == log[i].name
  {
    seq(|log|, i requires 0 <= i < |log| => log[i].name)
  }

  /** Number of steps marked as passing. */
  function PassCount(log: seq<Step>): nat
  {
    if log == [] then 0
    else (if log[0].mark == Pass then 1 else 0) + PassCount(log[1..])
  }

  /** The loop of `run_tests` over a given visiting order: one step per name,
      in that order, with no early exit, and the failure map it builds. */
  function RunNames(tests: Catalog, arguments: seq<string>, padding: int, run: Oracle,
                    names: seq<string>): (r: SuiteRun)
    requires Elements(names) <= tests.Keys
    requires Starts(run, arguments) || names == []
    ensures |r.log| == |names|
    ensures forall i :: 0 <= i < |names| ==> r.log[i] == StepFor(tests, arguments, padding, run, names[i])
    ensures r.errors == Failures(tests, arguments, run, Elements(names))
  {
    if names == [] then SuiteRun(map[], [])
    else
      var name := names[0];
      var rest := RunNames(tests, arguments, padding, run, names[1..]);
      var d := Diagnose(tests, arguments, run, name);
      var errors := if d.Error? then rest.errors[name := d.message] else rest.errors;
      assert errors == Failures(tests, arguments, run, Elements(names)) by {
        ElementsCons(names);
        FailuresAddOne(tests, arguments, run, Elements(names[1..]), name);
      }
      SuiteRun(errors, [StepFor(tests, arguments, padding, run, name)] + rest.log)
  }

  /** Taking one more case into account adds it to the failure map exactly
      when it fails, with its diagnostic. */
  lemma FailuresAddOne(tests: Catalog, arguments: seq<string>, run: Oracle, among: set<string>, name: string)
    requires name in tests
    ensures Diagnose(tests, arguments, run, name).Error? ==>
              Failures(tests, arguments, run, {name} + among)
              == Failures(tests, arguments, run, among)[name := Diagnose(tests, arguments, run, name).message]
    ensures !Diagnose(tests, arguments, run, name).Error? ==>
              Failures(tests, arguments, run, {name} + among) == Failures(tests, arguments, run, among)
  {
  }

  /** Over distinct names, every name either passed or is in the failure
      map, never both: passes plus failures add up to the cases run. */
  lemma {:induction false} PassCountComplements(tests: Catalog, arguments: seq<string>, padding: int,
                                                run: Oracle, names: seq<string>)
    requires Elements(names) <= tests.Keys
    requires Starts(run, arguments)
    requires StrictlySorted(names)
    ensures PassCount(RunNames(tests, arguments, padding, run, names).log)
            + |RunNames(tests, arguments, padding, run, names).errors| == |names|
    decreases |names|
  {
    if names != [] {
      var name := names[0];
      var tail := names[1..];
      HeadNotInTail(names);
      PassCountComplements(tests, arguments, padding, run, tail);
      var rest := RunNames(tests, arguments, padding, run, tail);
      assert name !in rest.errors;
      var r := RunNames(tests, arguments, padding, run, names);
      assert r.log[1..] == rest.log;
    }
  }

  lemma HeadNotInTail(names: seq<string>)
    requires names != [] && StrictlySorted(names)
    ensures names[0] !in Elements(names[1..])
  {
    if names[0] in names[1..] {
      var k :| 0 <= k < |names[1..]| && names[1..][k] == names[0];
      assert names[k + 1] == names[0];
      LessIrreflexive(names[0]);
    }
  }

  /** How `run_tests` ends: it returns the failure map, or `Popen` raised
      `OSError` on the first case because the compiler cannot be started. */
  datatype SuiteResult = Ran(suite: SuiteRun) | SpawnFailed

  /** What a completed `run_tests` guarantees about its failure map and log:
      every case compiled exactly once, in ascending name order, each with
      the user's command and that case's source; the failure map holds
      exactly the failing cases with their diagnostics; a step is marked
      failed exactly when its case is in the map; and the passes are what
      the failure map leaves. */
  predicate CompleteRun(tests: Catalog, arguments: seq<string>, padding: int, run: Oracle, s: SuiteRun)
  {
    && |s.log| == |tests|
    && StrictlySorted(Visited(s.log))
    && Elements(Visited(s.log)) == tests.Keys
    && (forall i :: 0 <= i < |s.log| ==>
          s.log[i].name in tests && s.log[i] == StepFor(tests, arguments, padding, run, s.log[i].name))
    && s.errors == Failures(tests, arguments, run, tests.Keys)
    && (forall i :: 0 <= i < |s.log| ==> (s.log[i].mark == Failed <==> s.log[i].name in s.errors))
    && PassCount(s.log) == |tests| - |s.errors|
  }

  /** `run_tests(tests, arguments, padding)`. */
  method RunTests(tests: Catalog, arguments: seq<string>, padding: int, run: Oracle) returns (r: SuiteResult)
    // an unstartable compiler raises as soon as there is a case to compile
    ensures r.SpawnFailed? <==> |tests| > 0 && !Starts(run, arguments)
    // otherwise the run is complete
    ensures r.Ran? ==> CompleteRun(tests, arguments, padding, run, r.suite)
    ensures r.Ran? ==> r.suite.errors.Keys <= tests.Keys
  {
    var names := SortedNames(tests.Keys);
    if names != [] && !Starts(run, arguments) {
      return SpawnFailed;
    }
    NoElements(names);
    var suite := RunNames(tests, arguments, padding, run, names);
    assert Visited(suite.log) == names;
    if names != [] {
      PassCountComplements(tests, arguments, padding, run, names);
    }
    r := Ran(suite);
  }
}
